=== FILE: README.md ===
# Image viewer content script, modelled in Dafny

This project models `ImageViewer`, the content script of a browser extension. The script does four things:

- It marks "large enough" images on a web page as clickable (the `image-clickable` class).
- It keeps those marks current as the page inserts nodes, using a MutationObserver.
- It answers the extension's `TOGGLE_EXTENSION` and `GET_IMAGE_COUNT` messages.
- When a marked image is clicked, it opens a modal overlay where the image can be zoomed, rotated, reset and closed.

Each callback of the script is a pure step function over immutable state: the startup storage read, a runtime message, the delegated document click, an observer callback, a keydown, the modal's wheel, buttons and backdrop, and the delayed teardown timer. `Viewer.Step` combines them into one function from a state and an event to the next state, plus any message response. `Viewer.Run` applies a sequence of events.

Modules:

- `Page` (page.dfy): the page's `<img>` elements and the eligibility filter. Also `addImageStyles`, `removeImageStyles`, `countImages`, and the observer callback's marking pass over added nodes.
- `Transform` (transform.dfy): scale (an exact `real`) clamped to [0.1, 10] in steps of 1.2, and rotation in quarter turns.
- `Input` (input.dfy): how keys, the wheel and the modal buttons map to viewer actions.
- `Watcher` (watcher.dfy): the enable flag, the observer subscription, the marks and the image count.
- `Overlay` (overlay.dfy): the modal lifecycle, the picture shown, the transform, the keydown listeners and the pending teardown timers.
- `Viewer` (viewer.dfy): the combined state, the event type, `Step`, `Run`, the click handler, and properties of whole runs.

Some modelling choices need saying:

- **Keydown listeners.** `showImageViewer` installs a new listener without removing one that is already installed. `hideImageViewer` removes only the listener that `this.keyboardHandler` points to. The model therefore keeps two things: the state of that referenced listener (none, registered, removed) and a count of older listeners that are still registered but no longer referenced. A keydown runs the action once per registered listener, in registration order. A listener removed during the dispatch is skipped, as DOM dispatch does. Nothing claims that at most one listener is registered; `Overlay.DoubleShowLeaksListener` shows a state with two.
- **Modal states.** The modal is absent, in the document, or orphaned. Orphaned means something other than the viewer removed the element while `this.modal` still refers to it: the background script's `disableExtensionOnPage`, or the host page itself. The `active` class is a flag on the last two states.
- **Storage read versus toggle.** A stored `false` that arrives after a `TOGGLE_EXTENSION(true)` turns the flag off but leaves the observer connected. So the callback's own flag check matters (`Viewer.LateStorageFalseKeepsObserver`).
- **Click targets.** A click names the position of the clicked `<img>` on the page, or says that it hit something else. The handler reads that image's mark, size and style from the page as it is at that moment. So a click on an image whose mark was removed does nothing.
- **Observer batches.** A batch carries the page after the host's change, the added nodes, and whether the host removed the viewer's modal. Each added node is either a non-element, or an element that names its own page position (if it is an IMG) and the positions of its descendant IMGs. A position outside the page stands for a node that had already left the document; marking it has no effect on the page. The observer watches the whole body, so the viewer's own changes to the body also run the callback. Appending a new modal adds one element whose only image is the viewer's own. Removing the modal, by the teardown timer or by the background script, adds no node. Each of these recounts while the observer is connected and the flag is on (`Viewer.ModalMutation`).
- **Zoom round trip.** Zooming in n times and then out n times does not always return to the original scale. It fails once the clamp is reached: from 9, one zoom in stops at 10 and one zoom out gives 10/1.2. `Transform.ZoomRoundTrip` proves that it does hold for a scale s ≥ 0.1 with s·1.2ⁿ ≤ 10. `Transform.ClampBreaksRoundTrip` gives the counterexample.

## Model

| member | source | states |
|---|---|---|
| Page.Eligible | content/content.js:104-107 | An image qualifies iff width > 50, height > 50, display ≠ "none", visibility ≠ "hidden" and opacity ≠ "0" (a string test). An image 50 px or less on either side never qualifies. |
| Page.AddImageStyles | content/content.js:78-84 | Afterwards an image is marked iff it was already marked or it qualifies. Nothing else about any image changes, and the page keeps its length. |
| Page.RemoveImageStyles | content/content.js:87-91 | Afterwards no image is marked, and nothing else about any image changes. |
| Page.RemoveImageStylesIdempotent | content/content.js:87-91 | Clearing the marks twice gives the same page as clearing them once. |
| Page.AddImageStylesIdempotent | content/content.js:78-84 | Marking twice gives the same page as marking once. |
| Page.RemarkMarksExactlyEligible | content/content.js:78-91 | Clearing and then marking leaves exactly the qualifying images marked. |
| Page.CountImages | content/content.js:94-101 | The count equals the number of qualifying positions on the page, and so never exceeds the number of images. |
| Page.CountIgnoresMarks | content/content.js:94-101 | Two pages that differ only in marks have the same count. |
| Page.ProcessNode | content/content.js:120-135 | One added node marks exactly the qualifying images it covers, as itself or as a descendant. A non-element node changes nothing. |
| Page.ProcessBatch | content/content.js:119-137 | After a whole batch, each image becomes marked if some added node covers it and it qualifies. Every other image is exactly as before. |
| Page.BatchMarksInsertedEligible | content/content.js:121-134 | Every qualifying inserted image ends up marked. An image that was not inserted, or does not qualify, is unchanged. |
| Page.BatchAfterAddImageStyles | content/content.js:123-133 | On a page where every qualifying image is already marked, a batch changes nothing. |
| Transform.ZoomIn | content/content.js:297-300 | The result is s·1.2 when that is at most 10, and exactly 10 otherwise. From a scale in [0.1, 10] it stays in range and never decreases. |
| Transform.ZoomOut | content/content.js:303-306 | The result is s/1.2 when that is at least 0.1, and exactly 0.1 otherwise. From a scale in [0.1, 10] it stays in range and never increases. |
| Transform.ZoomOutUndoesZoomIn | content/content.js:297-306 | When the upper clamp does not cut a zoom in short, a zoom out restores the scale. |
| Transform.ZoomInUndoesZoomOut | content/content.js:297-306 | When the lower clamp does not cut a zoom out short, a zoom in restores the scale. |
| Transform.ClampBreaksRoundTrip | content/content.js:297-306 | From 9, a zoom in followed by a zoom out does not return to 9. |
| Transform.ZoomTimesStayInRange | content/content.js:297-306 | Any number of consecutive zoom-ins or zoom-outs keeps a scale in [0.1, 10]. |
| Transform.ZoomRoundTrip | content/content.js:297-306 | From s ≥ 0.1 with s·1.2ⁿ ≤ 10, n zoom-ins reach s·1.2ⁿ, and n zoom-outs afterwards give back s exactly. (s·1.2ⁿ is `Transform.Grown`, s multiplied by 1.2 n times.) |
| Transform.Rotate | content/content.js:309-315 | From 0, 90, 180 or 270, a rotation stays in that set and equals (r + 90) mod 360. |
| Transform.RotateTimesIsModular | content/content.js:309-315 | n rotations from a valid angle give (r + 90·n) mod 360. |
| Transform.FourRotationsAreIdentity | content/content.js:309-315 | Four rotations return any valid angle to itself. |
| Input.KeyAction | content/content.js:255-284 | Escape closes. Ctrl/meta with + or = zooms in. Ctrl/meta with - zooms out. r or R rotates with or without a modifier. Ctrl/meta with 0 resets. Each holds in both directions. |
| Input.OtherKeysDoNothing | content/content.js:256-283 | Any key outside the switch does nothing, whatever the modifiers. |
| Input.WheelAction | content/content.js:233-240 | A negative deltaY zooms in. Any other deltaY, zero included, zooms out. |
| Input.ButtonAction | content/content.js:181-202 | The close button closes, and the four control buttons zoom in, zoom out, rotate and reset, in that order. Each action comes from exactly one button, and no button does nothing. |
| Input.ButtonsMatchShortcuts | content/content.js:181-283 | Each button does what its keyboard shortcut does: Escape, ctrl/meta with + or =, ctrl/meta with -, r or R, and ctrl/meta with 0. |
| Watcher.Start | content/content.js:4-13 | Before the storage read answers, the flag is on, no observer is connected, and the count is 0. |
| Watcher.StoredEnabled | content/content.js:17-18 | The flag is off only for a stored boolean `false`. A missing value (or any other value) means enabled. |
| Watcher.Activate | content/content.js:31-33 | Enabling marks every qualifying image and leaves the observer connected. Flag and count are unchanged. |
| Watcher.Load | content/content.js:17-23 | The startup read sets the flag from storage. If the flag is on, the observer is connected and an image ends up marked iff it was marked or qualifies. If off, only the flag changes, and an existing observer is not disconnected. |
| Watcher.Toggle | content/content.js:27-42 | The flag and the observer follow the message. On: qualifying images are marked. Off: no mark remains. The count is unchanged. |
| Watcher.Receive | content/content.js:26-48 | A toggle replies success. GET_IMAGE_COUNT replies with the current count and changes nothing. Other messages get no reply. |
| Watcher.Inserted | content/content.js:115-141 | Disabled or unobserved: the state only takes the new page. Otherwise inserted qualifying images are marked, nothing else changes, and the count equals the number of qualifying images on the page. |
| Watcher.Restyled | content/content.js:143-146 | A change to sizes or styles alone triggers no callback, so the marks and the count stay as they were. |
| Watcher.ClearMarksExternally | background/background.js:40-43 | The background script's clean-up leaves no mark. The viewer's flag, observer and count are untouched. |
| Watcher.ToggleOffOnMarksExactlyEligible | content/content.js:27-40 | Disabling and then enabling leaves exactly the qualifying images marked, with the observer connected. |
| Watcher.ToggleOnIdempotent | content/content.js:31-33 | Enabling twice gives the same state as enabling once. |
| Overlay.Closed | content/content.js:5-8 | Initially there is no modal, scale is 1, rotation is 0, and no listener or timer exists. |
| Overlay.CreateModal | content/content.js:171-174 | A modal that is in the document is reused unchanged. Otherwise exactly one new inactive modal is created. |
| Overlay.AddKeyboardListener | content/content.js:254-287 | One more listener is registered and becomes the referenced one. A previously referenced listener stays registered. |
| Overlay.RemoveKeyboardListener | content/content.js:290-294 | Only the referenced listener is removed, so the live count drops by at most one. Stale listeners remain. |
| Overlay.Show | content/content.js:150-168 | Afterwards the modal is in the document and active, the picture is the given src/alt, scale is 1 and rotation is 0. The live listener count grows by one. A new modal is created only if none was attached. |
| Overlay.Hide | content/content.js:332-347 | A present modal turns inactive immediately and one teardown is scheduled. The referenced listener is removed. The transform and the picture are unchanged. |
| Overlay.TeardownFires | content/content.js:337-342 | A firing timer detaches the modal only if it is attached and inactive. Nothing else changes. |
| Overlay.Apply | content/content.js:297-322 | Only Close touches the modal, the listeners or the timers. Each action keeps scale in range and rotation valid. |
| Overlay.KeyDown | content/content.js:254-286 | A keydown keeps scale in range and rotation valid. |
| Overlay.OnModal | content/content.js:225-240 | Wheel, button and backdrop input acts only while the modal is in the document. |
| Overlay.DetachExternally | background/background.js:35-38 | The background script (or the host page) removes an attached modal from the document. The viewer still refers to it, and nothing else changes. |
| Overlay.ShowEstablishesTransformOk | content/content.js:158-160 | After a show, scale and rotation satisfy the range invariant whatever they were before. |
| Overlay.ShowCancelsPendingTeardown | content/content.js:337-342 | A show after a hide but before the timer fires keeps the modal attached and active, and reuses it. |
| Overlay.HideThenTeardownDetaches | content/content.js:332-342 | Without a reopen, the timer detaches the hidden modal. |
| Overlay.DoubleShowLeaksListener | content/content.js:254-294 | Two shows leave two listeners registered. A hide then leaves one. |
| Overlay.RotateKeyRunsEveryListener | content/content.js:273-276 | With k live listeners, one r/R press rotates k times, to (r + 90·k) mod 360. |
| Overlay.EscapeWithOneListener | content/content.js:257-259 | With a single listener, Escape is one hide and leaves no listener. |
| Overlay.KeyDownRunsEveryListener | content/content.js:254-286 | A key other than Escape applies its action once per live listener. |
| Overlay.RepeatedHide | content/content.js:332-347 | n hides over an existing modal schedule n teardowns and leave it inactive. |
| Overlay.EscapeWithStaleListeners | content/content.js:257-294 | Over an existing modal, with stale listeners, Escape schedules one teardown per stale listener. The referenced listener is removed before its turn, and the stale listeners remain. |
| Overlay.RepeatedReset | content/content.js:318-322 | Resetting any positive number of times gives the same overlay as one reset: scale 1, rotation 0, nothing else changed. |
| Overlay.ResetRestoresDefaults | content/content.js:318-322 | With at least one keydown listener registered, ctrl/meta+0 and the reset button set scale to 1 and rotation to 0 and change nothing else. |
| Overlay.KeysIgnoredWithoutListener | content/content.js:286-294 | With no listener registered, no key has any effect. |
| Viewer.AltOrDefault | content/content.js:73 | The shown alt is never empty: the image's alt if it has one, otherwise "图片". |
| Viewer.Initial | content/content.js:3-13 | At construction the flag is on, nothing is observed, the count is 0, and no modal or listener exists. |
| Viewer.DocumentClick | content/content.js:55-75 | The click does nothing when disabled, when the target is not an image of the page, when that image is unmarked, or when it no longer qualifies. Otherwise the viewer opens on that image's src and alt, at scale 1 and rotation 0, building a new modal only if none is attached. |
| Viewer.ModalMutation | content/content.js:115-146 | Appending or removing the modal (lines 223 and 339, and background/background.js line 37) runs the callback. With the observer connected and the flag on, the count becomes the number of qualifying images. The page is never changed by it, and nothing happens if the modal stayed put. |
| Viewer.Step | content/content.js:15-52 | No event breaks the transform invariant. The count changes only on a host change, or when the modal is appended or removed while the callback is active, and then it becomes the number of qualifying images. While the callback is inactive, only a host change can alter the count. Every other event keeps the page's length, and an unmarked image stays unmarked unless the event is the storage read, enabling or a host change. Only messages get replies. A toggle replies success and leaves the overlay alone. GET_IMAGE_COUNT changes nothing. |
| Viewer.RunKeepsTransformOk | content/content.js:296-322 | Along any run of events, scale stays in [0.1, 10] and rotation in {0, 90, 180, 270}. |
| Viewer.CountChangesOnlyOnMutations | content/content.js:93-101 | A run with no event that can insert or remove nodes (a host change, a click, a teardown, the background clean-up) leaves the image count as it was. |
| Viewer.CountIsZeroBeforeFirstMutation | content/content.js:45-47 | GET_IMAGE_COUNT answers 0 until the first event that can insert or remove nodes. |
| Viewer.OpeningTheViewerRecounts | content/content.js:222-223 | With one visible 100×100 image, opening the viewer right after startup appends the modal, and GET_IMAGE_COUNT then answers 1 (the viewer's own image aside). |
| Viewer.StartupLoad | content/content.js:17-23 | After startup the flag is on iff storage did not hold `false`. Observing matches the flag. If on, an image ends up marked iff it was marked or qualifies. If off, the page is untouched. |
| Viewer.ToggleOffClearsEverything | content/content.js:34-42 | TOGGLE_EXTENSION(false) replies success and leaves no mark and no observer. The overlay is untouched. |
| Viewer.ToggleOnMarksEligible | content/content.js:31-42 | TOGGLE_EXTENSION(true) replies success, marks every qualifying image and connects the observer. The overlay is untouched. |
| Viewer.DisabledBatchChangesNothing | content/content.js:116-117 | While disabled, an observer callback changes nothing beyond the host's own change: the new page, and the loss of the modal if the host removed it. |
| Viewer.HostRemovalOrphansModal | content/content.js:171-174 | If the host removes the modal, the viewer still refers to it. A pending teardown then leaves it alone (the `parentNode` test at line 338). The next click on a marked, qualifying image builds a new modal (the test at line 172). |
| Viewer.EnabledBatchMarksAndCounts | content/content.js:119-140 | An enabled callback marks each qualifying inserted image and leaves the rest unchanged. The count becomes the number of qualifying images on the page. |
| Viewer.LateStorageFalseKeepsObserver | content/content.js:17-23 | If a toggle-on is followed by a stored `false`, the observer stays connected while the flag is off. The observer's callbacks then change no mark and no count. |
| Viewer.ToggleOffKeepsViewerOpen | content/content.js:34-40 | Disabling does not close an open viewer, and its keys keep working. |
| Viewer.ClickOpensExactlyInterceptedTargets | content/content.js:55-75 | A click opens the viewer iff the flag is on and the target is a marked, qualifying image. The viewer then shows that image's src and alt (or the default alt). Any other click changes nothing. |
| Viewer.SmallImageNeverOpens | content/content.js:66-68 | Clicking an image of 50 px or less on either side changes nothing, even if it is marked. |
| Viewer.WheelZooms | content/content.js:233-240 | On an attached modal, a negative deltaY zooms in and any other deltaY zooms out. Rotation is unchanged. |
| Viewer.NoClickOpensUntilMarked | content/content.js:63-64 | After the background script's clean-up, and as long as no event that can add a mark occurs, no image is marked and every click changes nothing. |
| Viewer.ReopenAfterBackgroundRemoval | content/content.js:171-174 | After the background script removes the modal and the marks, enabling marks the images again. A click on a qualifying image then builds a new modal rather than reusing the orphan, and shows that image. |
| Viewer.ThreeImageScenario | content/content.js:78-84 | On a page with a 100×100 visible image, a 30×30 image and a hidden 200×200 image, startup marks only the first. Clicking it opens the viewer on it with the default alt. |

## Left out

- DOM construction in `createModal` (buttons, class names, `innerHTML`, the info text) is not modelled. Only its reuse check and the mapping of its listeners to actions are.
- The CSS transform string built by `updateImageTransform` is not modelled. The model keeps scale and rotation themselves.
- Floating-point rounding of the scale is not modelled; the scale is an exact `real`. Likewise `deltaY` is a `real`, so the NaN case (which zooms out) does not arise.
- The 300 ms delay is not modelled. A teardown is a pending timer that may fire at any later step.
- `preventDefault` and `stopPropagation` have no state effect and are not modelled.
- The viewer's own `<img>` inside the modal is not part of the modelled page. Whether the marking pass or the count picks it up depends on CSS and image loading, and neither is visible in these files. The callback that the modal's insertion or removal triggers is modelled; only this image is left out of it. Nor is a click on this image modelled. If it carries the mark (from the descendant scan after the append, or from `addImageStyles` on a later enable), a click on it bubbles to the document handler, and `showImageViewer` runs again: the transform resets, and one more keydown listener is registered.
- The real DOM, `chrome.storage`, `chrome.runtime` messaging and the MutationObserver wiring are not modelled. They are replaced by explicit events that carry the host's new page, the stored value and the message.
- `TOGGLE_EXTENSION` carries a boolean here. The script only tests the payload for truthiness.
- The single-instance guard and the `DOMContentLoaded` wait (content/content.js:351-362) are not modelled; there is exactly one viewer per page.
- popup/popup.js is not modelled. It is UI text, a checkbox, and message calls.
- The background script's install hook, tab-update hook and broadcast loop are not modelled. They are messaging plumbing; only its page clean-up (`disableExtensionOnPage`) is modelled, as the `DisabledByBackground` event.
- Navigation between images, the thumbnail strip, download and counter-clockwise rotation are not modelled, because content/content.js has no code for them.
- Transform.ZoomIn: the range and never-decreases clauses are stated only for scales in [0.1, 10]. These are the only scales a run can reach (Viewer.RunKeepsTransformOk).
- Transform.ZoomOut: the range and never-increases clauses are stated only for scales in [0.1, 10], for the same reason.

=== FILE: input.dfy ===
/**
 * What the viewer's input surfaces ask it to do: the keydown handler
 * installed by `addKeyboardListeners`, the wheel listener on the modal, and
 * the four control buttons plus the close button built by `createModal`
 * (content/content.js).
 */
module Input {

  /** One call the input handlers make on the viewer, or none. */
  datatype Action = DoNothing | Close | ZoomInAction | ZoomOutAction | RotateAction | ResetAction

  /** The buttons `createModal` builds. */
  datatype Control = CloseButton | ZoomInButton | ZoomOutButton | RotateButton | ResetButton

  /** The keydown handler's switch on `e.key`. Escape and r/R act with or
      without a modifier; +, =, - and 0 need ctrl or meta. */
  function KeyAction(key: string, ctrl: bool, meta: bool): (a: Action)
    ensures a == Close <==> key == "Escape"
    ensures a == ZoomInAction <==> (key == "+" || key == "=") && (ctrl || meta)
    ensures a == ZoomOutAction <==> key == "-" && (ctrl || meta)
    ensures a == RotateAction <==> key == "r" || key == "R"
    ensures a == ResetAction <==> key == "0" && (ctrl || meta)
  {
    var modified := ctrl || meta;
    if key == "Escape" then Close
    else if key == "+" || key == "=" then (if modified then ZoomInAction else DoNothing)
    else if key == "-" then (if modified then ZoomOutAction else DoNothing)
    else if key == "r" || key == "R" then RotateAction
    else if key == "0" then (if modified then ResetAction else DoNothing)
    else DoNothing
  }

  /** Keys outside the switch do nothing, whatever the modifiers. */
  lemma OtherKeysDoNothing(key: string, ctrl: bool, meta: bool)
    requires key !in {"Escape", "+", "=", "-", "r", "R", "0"}
    ensures KeyAction(key, ctrl, meta) == DoNothing
  {
  }

  /** The wheel listener: scrolling up (negative deltaY) zooms in, anything
      else, zero included, zooms out. */
  function WheelAction(deltaY: real): (a: Action)
    ensures a == ZoomInAction <==> deltaY < 0.0
    ensures a == ZoomOutAction <==> deltaY >= 0.0
  {
    if deltaY < 0.0 then ZoomInAction else ZoomOutAction
  }

  /** The button callbacks: the close button hides the viewer, and the four
      control buttons, in the order they are built, zoom in, zoom out, rotate
      and reset. */
  function ButtonAction(c: Control): (a: Action)
    ensures a != DoNothing
    ensures a == Close <==> c == CloseButton
    ensures a == ZoomInAction <==> c == ZoomInButton
    ensures a == ZoomOutAction <==> c == ZoomOutButton
    ensures a == RotateAction <==> c == RotateButton
    ensures a == ResetAction <==> c == ResetButton
  {
    match c
    case CloseButton => Close
    case ZoomInButton => ZoomInAction
    case ZoomOutButton => ZoomOutAction
    case RotateButton => RotateAction
    case ResetButton => ResetAction
  }

  /** Every button does what its keyboard shortcut does. */
  lemma ButtonsMatchShortcuts(ctrl: bool, meta: bool)
    requires ctrl || meta
    ensures ButtonAction(CloseButton) == KeyAction("Escape", ctrl, meta)
    ensures ButtonAction(ZoomInButton) == KeyAction("+", ctrl, meta) == KeyAction("=", ctrl, meta)
    ensures ButtonAction(ZoomOutButton) == KeyAction("-", ctrl, meta)
    ensures ButtonAction(RotateButton) == KeyAction("r", ctrl, meta) == KeyAction("R", false, false)
    ensures ButtonAction(ResetButton) == KeyAction("0", ctrl, meta)
  {
  }
}

=== FILE: overlay.dfy ===
/**
 * The viewer overlay: the modal element's lifecycle, the displayed picture,
 * the scale and rotation, the keydown listeners `showImageViewer` installs and
 * `hideImageViewer` removes, and the delayed teardown timers
 * (content/content.js, class ImageViewer).
 */
module Overlay {
  import opened Page
  import opened Transform
  import opened Input

  /** `this.modal`: none, an element in the document, or an element something
      else removed from the document while the viewer still refers to it. The
      flag is the `active` class. */
  datatype Modal = NoModal | Attached(active: bool) | Orphaned(active: bool)

  /** The listener `this.keyboardHandler` refers to: none yet, registered on
      the document, or already removed. */
  datatype Handler = NoHandler | Registered | Removed

  /** The src and alt the viewer's <img> shows. */
  datatype Picture = Picture(src: string, alt: string)

  datatype Overlay = Overlay(
    modal: Modal,
    picture: Option<Picture>,
    scale: real,
    rotation: int,
    handler: Handler,
    staleHandlers: nat,    // earlier keydown listeners, still registered, no longer referenced
    pendingTimers: nat,    // teardown callbacks scheduled by hideImageViewer and not yet run
    modalsCreated: nat)    // how many times createModal built a new element

  /** The constructor's state. */
  function Closed(): (o: Overlay)
    ensures o.modal == NoModal && o.scale == DefaultScale && o.rotation == DefaultRotation
    ensures o.handler == NoHandler && o.staleHandlers == 0 && o.pendingTimers == 0
  {
    Overlay(NoModal, None, DefaultScale, DefaultRotation, NoHandler, 0, 0, 0)
  }

  /** The transform invariant every reachable overlay keeps. */
  predicate TransformOk(o: Overlay) {
    InScaleRange(o.scale) && ValidRotation(o.rotation)
  }

  /** Number of keydown listeners of the viewer registered on the document. */
  function LiveHandlers(o: Overlay): nat {
    o.staleHandlers + (if o.handler == Registered then 1 else 0)
  }

  /** `createModal`: reuse a modal that is in the document, otherwise build a
      new one (without the `active` class) and append it. */
  function CreateModal(o: Overlay): (t: Overlay)
    ensures t.modal.Attached?
    ensures o.modal.Attached? ==> t == o
    ensures !o.modal.Attached? ==> t == o.(modal := Attached(false), modalsCreated := o.modalsCreated + 1)
  {
    if o.modal.Attached? then o
    else o.(modal := Attached(false), modalsCreated := o.modalsCreated + 1)
  }

  /** `addKeyboardListeners`: registers a new listener and repoints the field
      at it; a listener the field pointed to stays registered. */
  function AddKeyboardListener(o: Overlay): (t: Overlay)
    ensures t.handler == Registered
    ensures LiveHandlers(t) == LiveHandlers(o) + 1
    ensures t.modal == o.modal && t.pendingTimers == o.pendingTimers
  {
    o.(handler := Registered,
       staleHandlers := if o.handler == Registered then o.staleHandlers + 1 else o.staleHandlers)
  }

  /** `removeKeyboardListeners`: removes only the listener the field points to. */
  function RemoveKeyboardListener(o: Overlay): (t: Overlay)
    ensures t.handler != Registered && t.staleHandlers == o.staleHandlers
    ensures LiveHandlers(t) == if o.handler == Registered then LiveHandlers(o) - 1 else LiveHandlers(o)
    ensures t.modal == o.modal && t.pendingTimers == o.pendingTimers
  {
    if o.handler == Registered then o.(handler := Removed) else o
  }

  /** `showImageViewer`. */
  function Show(o: Overlay, src: string, alt: string): (t: Overlay)
    ensures t.modal == Attached(true)
    ensures t.picture == Some(Picture(src, alt))
    ensures t.scale == DefaultScale && t.rotation == DefaultRotation
    ensures t.handler == Registered && LiveHandlers(t) == LiveHandlers(o) + 1
    ensures t.modalsCreated == if o.modal.Attached? then o.modalsCreated else o.modalsCreated + 1
    ensures t.pendingTimers == o.pendingTimers
  {
    var created := CreateModal(o);
    var pictured := created.(picture := Some(Picture(src, alt)), scale := DefaultScale, rotation := DefaultRotation);
    AddKeyboardListener(pictured.(modal := Attached(true)))
  }

  /** `hideImageViewer`: drop `active` and schedule a teardown if there is a
      modal, then remove the referenced keydown listener. */
  function Hide(o: Overlay): (t: Overlay)
    ensures !o.modal.NoModal? ==> !t.modal.NoModal? && !t.modal.active && t.pendingTimers == o.pendingTimers + 1
    ensures o.modal.NoModal? ==> t.modal == NoModal && t.pendingTimers == o.pendingTimers
    ensures t.modal.Attached? <==> o.modal.Attached?
    ensures t.modal.Orphaned? <==> o.modal.Orphaned?
    ensures t.handler != Registered && t.staleHandlers == o.staleHandlers
    ensures t.scale == o.scale && t.rotation == o.rotation && t.picture == o.picture
    ensures t.modalsCreated == o.modalsCreated
  {
    var faded :=
      match o.modal
      case NoModal => o
      case Attached(_) => o.(modal := Attached(false), pendingTimers := o.pendingTimers + 1)
      case Orphaned(_) => o.(modal := Orphaned(false), pendingTimers := o.pendingTimers + 1);
    RemoveKeyboardListener(faded)
  }

  /** One teardown callback runs: it removes the modal only if it is still in
      the document and still inactive. */
  function TeardownFires(o: Overlay): (t: Overlay)
    requires o.pendingTimers > 0
    ensures t.pendingTimers == o.pendingTimers - 1
    ensures t.modal == if o.modal == Attached(false) then NoModal else o.modal
    ensures t == o.(modal := t.modal, pendingTimers := t.pendingTimers)
  {
    var fired := o.(pendingTimers := o.pendingTimers - 1);
    if o.modal == Attached(false) then fired.(modal := NoModal) else fired
  }

  /** One viewer method called from an input handler. */
  function Apply(o: Overlay, a: Action): (t: Overlay)
    ensures a != Close ==> t.modal == o.modal && t.handler == o.handler
                           && t.staleHandlers == o.staleHandlers && t.pendingTimers == o.pendingTimers
    ensures a == Close ==> t == Hide(o)
    ensures a == ZoomInAction ==> t == o.(scale := ZoomIn(o.scale))
    ensures a == ZoomOutAction ==> t == o.(scale := ZoomOut(o.scale))
    ensures a == RotateAction ==> t == o.(rotation := Rotate(o.rotation))
    ensures a == ResetAction ==> t == o.(scale := DefaultScale, rotation := DefaultRotation)
    ensures a == DoNothing ==> t == o
    ensures TransformOk(o) ==> TransformOk(t)
    ensures t.modal.Attached? == o.modal.Attached?
  {
    match a
    case DoNothing => o
    case Close => Hide(o)
    case ZoomInAction => o.(scale := ZoomIn(o.scale))
    case ZoomOutAction => o.(scale := ZoomOut(o.scale))
    case RotateAction => o.(rotation := Rotate(o.rotation))
    case ResetAction => o.(scale := DefaultScale, rotation := DefaultRotation)
  }

  /** The same viewer method called n times in a row. */
  function ApplyTimes(o: Overlay, a: Action, n: nat): (t: Overlay)
    ensures a != Close ==> t.modal == o.modal && t.handler == o.handler
                           && t.staleHandlers == o.staleHandlers && t.pendingTimers == o.pendingTimers
    ensures TransformOk(o) ==> TransformOk(t)
    ensures a == RotateAction ==> t.rotation == RotateTimes(o.rotation, n)
    ensures t.modal.Attached? == o.modal.Attached?
  {
    if n == 0 then o else Apply(ApplyTimes(o, a, n - 1), a)
  }

  /** A keydown event on the document. Every registered listener runs in
      registration order: first the stale ones, then the one the field points
      to, unless an earlier listener removed it during this dispatch. */
  function KeyDown(o: Overlay, key: string, ctrl: bool, meta: bool): (t: Overlay)
    ensures TransformOk(o) ==> TransformOk(t)
    ensures t.modal.Attached? == o.modal.Attached?
  {
    var a := KeyAction(key, ctrl, meta);
    var afterStale := ApplyTimes(o, a, o.staleHandlers);
    if o.handler == Registered && afterStale.handler == Registered then Apply(afterStale, a)
    else afterStale
  }

  /** Wheel, button and backdrop listeners live on the modal element, so they
      only fire while it is in the document. */
  function OnModal(o: Overlay, a: Action): (t: Overlay)
    ensures !o.modal.Attached? ==> t == o
    ensures o.modal.Attached? ==> t == Apply(o, a)
  {
    if o.modal.Attached? then Apply(o, a) else o
  }

  /** Something other than the viewer (background.js `disableExtensionOnPage`,
      or the host page) removes the modal element from the document behind the
      viewer's back; `this.modal` keeps pointing at it and the keydown
      listeners stay registered. */
  function DetachExternally(o: Overlay): (t: Overlay)
    ensures !t.modal.Attached?
    ensures o.modal.Attached? ==> t.modal == Orphaned(o.modal.active)
    ensures !o.modal.Attached? ==> t == o
    ensures t == o.(modal := t.modal)
  {
    match o.modal
    case Attached(active) => o.(modal := Orphaned(active))
    case _ => o
  }

  // ---------------------------------------------------------------------------
  // Properties of the overlay
  // ---------------------------------------------------------------------------

  /** Every operation keeps the scale in [0.1, 10] and the rotation in
      {0, 90, 180, 270}. */
  lemma ShowEstablishesTransformOk(o: Overlay, src: string, alt: string)
    ensures TransformOk(Show(o, src, alt))
  {
  }

  /** Reopening before the teardown runs cancels the detach: the modal that
      was hidden and shown again survives its pending timer. */
  lemma ShowCancelsPendingTeardown(o: Overlay, src: string, alt: string)
    requires o.modal.Attached?
    ensures var t := TeardownFires(Show(Hide(o), src, alt));
            t.modal == Attached(true) && t.modalsCreated == o.modalsCreated
  {
  }

  /** Without a reopen, the teardown detaches the hidden modal. */
  lemma HideThenTeardownDetaches(o: Overlay)
    requires o.modal.Attached?
    ensures TeardownFires(Hide(o)).modal == NoModal
  {
  }

  /** Showing twice without hiding leaves two keydown listeners registered,
      and hiding then removes only one of them. */
  lemma DoubleShowLeaksListener(src: string, alt: string)
    ensures LiveHandlers(Show(Show(Closed(), src, alt), src, alt)) == 2
    ensures LiveHandlers(Hide(Show(Show(Closed(), src, alt), src, alt))) == 1
  {
  }

  /** With k listeners registered, one press of r/R rotates k times. */
  lemma {:induction false} RotateKeyRunsEveryListener(o: Overlay, key: string, ctrl: bool, meta: bool)
    requires key == "r" || key == "R"
    requires ValidRotation(o.rotation)
    ensures KeyDown(o, key, ctrl, meta).rotation == RotateTimes(o.rotation, LiveHandlers(o))
    ensures KeyDown(o, key, ctrl, meta).rotation == (o.rotation + QuarterTurn * LiveHandlers(o)) % FullTurn
  {
    var afterStale := ApplyTimes(o, RotateAction, o.staleHandlers);
    assert afterStale.rotation == RotateTimes(o.rotation, o.staleHandlers);
    RotateTimesIsModular(o.rotation, LiveHandlers(o));
  }

  /** When the only listener is the current one, Escape hides the viewer once
      and leaves no listener behind. */
  lemma EscapeWithOneListener(o: Overlay, ctrl: bool, meta: bool)
    requires o.handler == Registered && o.staleHandlers == 0
    ensures KeyDown(o, "Escape", ctrl, meta) == Hide(o)
    ensures LiveHandlers(KeyDown(o, "Escape", ctrl, meta)) == 0
  {
  }

  /** A key other than Escape runs its action once per registered listener. */
  lemma KeyDownRunsEveryListener(o: Overlay, key: string, ctrl: bool, meta: bool)
    requires KeyAction(key, ctrl, meta) != Close
    ensures KeyDown(o, key, ctrl, meta) == ApplyTimes(o, KeyAction(key, ctrl, meta), LiveHandlers(o))
  {
  }

  /** Hiding n times over a modal that exists. */
  lemma {:induction false} RepeatedHide(o: Overlay, n: nat)
    requires !o.modal.NoModal? && n > 0
    ensures var t := ApplyTimes(o, Close, n);
            && t.pendingTimers == o.pendingTimers + n
            && t.handler != Registered && t.staleHandlers == o.staleHandlers
            && !t.modal.NoModal? && !t.modal.active
  {
    if n > 1 {
      RepeatedHide(o, n - 1);
    }
  }

  /** Escape with stale listeners: each stale listener hides the viewer and
      schedules a teardown; the first removes the current listener, which
      therefore never runs, and the stale ones stay registered. */
  lemma EscapeWithStaleListeners(o: Overlay, ctrl: bool, meta: bool)
    requires !o.modal.NoModal? && o.staleHandlers > 0
    ensures var t := KeyDown(o, "Escape", ctrl, meta);
            && t.pendingTimers == o.pendingTimers + o.staleHandlers
            && !t.modal.NoModal? && !t.modal.active
            && LiveHandlers(t) == o.staleHandlers
  {
    RepeatedHide(o, o.staleHandlers);
  }

  /** Resetting any positive number of times is one reset. */
  lemma {:induction false} RepeatedReset(o: Overlay, n: nat)
    requires n > 0
    ensures ApplyTimes(o, ResetAction, n) == o.(scale := DefaultScale, rotation := DefaultRotation)
  {
    if n > 1 {
      RepeatedReset(o, n - 1);
    }
  }

  /** With at least one listener registered, ctrl/meta+0 and the reset button
      both restore scale 1 and rotation 0 and touch nothing else. */
  lemma ResetRestoresDefaults(o: Overlay, meta: bool)
    requires LiveHandlers(o) >= 1
    ensures var t := KeyDown(o, "0", !meta, meta);
            t.scale == DefaultScale && t.rotation == DefaultRotation
            && t == o.(scale := t.scale, rotation := t.rotation)
    ensures o.modal.Attached? ==> OnModal(o, ButtonAction(ResetButton)) == KeyDown(o, "0", !meta, meta)
  {
    if o.staleHandlers > 0 {
      RepeatedReset(o, o.staleHandlers);
    }
  }

  /** With no listener registered, no key does anything. */
  lemma KeysIgnoredWithoutListener(o: Overlay, key: string, ctrl: bool, meta: bool)
    requires LiveHandlers(o) == 0
    ensures KeyDown(o, key, ctrl, meta) == o
  {
  }
}

=== FILE: page.dfy ===
/**
 * The host page as the image viewer sees it: the sequence of its <img>
 * elements in document order, the eligibility filter that decides which of
 * them are "real" content images, and the operations that set or clear the
 * `image-clickable` mark on them (content/content.js, class ImageViewer).
 */
module Page {

  datatype Option<T> = None | Some(value: T)

  /** One <img> element: its source and alt text, its rendered size, the three
      computed-style properties the filter reads (as the strings the browser
      reports), and whether it carries the `image-clickable` class. */
  datatype Img = Img(
    src: string,
    alt: string,
    width: int,
    height: int,
    display: string,
    visibility: string,
    opacity: string,
    clickable: bool)

  /** Minimum rendered width and height (exclusive) of an eligible image. */
  const MinSide: int := 50

  /** `isVisible`: all three tests are string comparisons on the computed
      style, opacity included. */
  predicate Visible(img: Img) {
    img.display != "none" && img.visibility != "hidden" && img.opacity != "0"
  }

  /** The size test written out at every call site, combined with `isVisible`. */
  function Eligible(img: Img): (b: bool)
    ensures b <==> img.width > 50 && img.height > 50
                   && img.display != "none" && img.visibility != "hidden" && img.opacity != "0"
    ensures img.width <= 50 || img.height <= 50 ==> !b
  {
    img.width > MinSide && img.height > MinSide && Visible(img)
  }

  function Mark(img: Img): Img { img.(clickable := true) }

  /** The image without its mark: everything about it the viewer does not write. */
  function Unmark(img: Img): Img { img.(clickable := false) }

  /** No image on the page carries the mark. */
  predicate NoMarks(page: seq<Img>) {
    forall i :: 0 <= i < |page| ==> !page[i].clickable
  }

  /** `q` is `p` with at most the clickable marks changed. */
  predicate OnlyMarksDiffer(p: seq<Img>, q: seq<Img>) {
    |p| == |q| && forall i :: 0 <= i < |p| ==> Unmark(p[i]) == Unmark(q[i])
  }

  /** The mark never influences eligibility. */
  lemma EligibleIgnoresMark(a: Img, b: Img)
    requires Unmark(a) == Unmark(b)
    ensures Eligible(a) == Eligible(b)
  {
  }

  // ---------------------------------------------------------------------------
  // addImageStyles / removeImageStyles
  // ---------------------------------------------------------------------------

  /** `addImageStyles`: mark every eligible image; nothing is ever unmarked. */
  function AddImageStyles(page: seq<Img>): (r: seq<Img>)
    ensures OnlyMarksDiffer(page, r)
    ensures forall i :: 0 <= i < |r| ==> (r[i].clickable <==> page[i].clickable || Eligible(page[i]))
  {
    if page == [] then []
    else [if Eligible(page[0]) then Mark(page[0]) else page[0]] + AddImageStyles(page[1..])
  }

  /** `removeImageStyles`: clear the mark from every image that has it. */
  function RemoveImageStyles(page: seq<Img>): (r: seq<Img>)
    ensures OnlyMarksDiffer(page, r)
    ensures forall i :: 0 <= i < |r| ==> !r[i].clickable
  {
    if page == [] then []
    else [if page[0].clickable then Unmark(page[0]) else page[0]] + RemoveImageStyles(page[1..])
  }

  /** Clearing the marks a second time changes nothing. */
  lemma RemoveImageStylesIdempotent(page: seq<Img>)
    ensures RemoveImageStyles(RemoveImageStyles(page)) == RemoveImageStyles(page)
  {
  }

  /** Marking a second time changes nothing. */
  lemma AddImageStylesIdempotent(page: seq<Img>)
    ensures AddImageStyles(AddImageStyles(page)) == AddImageStyles(page)
  {
  }

  /** Clearing then marking leaves exactly the eligible images marked. */
  lemma RemarkMarksExactlyEligible(page: seq<Img>)
    ensures OnlyMarksDiffer(page, AddImageStyles(RemoveImageStyles(page)))
    ensures forall i :: 0 <= i < |page| ==>
              (AddImageStyles(RemoveImageStyles(page))[i].clickable <==> Eligible(page[i]))
  {
  }

  // ---------------------------------------------------------------------------
  // countImages
  // ---------------------------------------------------------------------------

  /** Positions of the eligible images on a page. */
  function EligibleAt(page: seq<Img>): set<int> {
    set i | 0 <= i < |page| && Eligible(page[i])
  }

  /** The eligible positions of a page are those of all but its last image,
      plus the last position if that image is eligible. */
  lemma EligibleAtSnoc(page: seq<Img>)
    requires page != []
    ensures var n := |page| - 1;
            && n !in EligibleAt(page[..n])
            && EligibleAt(page) == EligibleAt(page[..n]) + (if Eligible(page[n]) then {n} else {})
  {
    var n := |page| - 1;
    var front := page[..n];
    var last: set<int> := if Eligible(page[n]) then {n} else {};
    forall i | i in EligibleAt(page)
      ensures i in EligibleAt(front) + last
    {
      if i < n { assert front[i] == page[i]; }
    }
    forall i | i in EligibleAt(front) + last
      ensures i in EligibleAt(page)
    {
      if i < n { assert front[i] == page[i]; }
    }
  }

  /** `countImages`: the number of images that pass the filter, which is the
      number of eligible positions on the page. */
  function CountImages(page: seq<Img>): (n: nat)
    ensures n == |EligibleAt(page)|
    ensures n <= |page|
  {
    if page == [] then
      assert EligibleAt(page) == {};
      0
    else
      var n := |page| - 1;
      EligibleAtSnoc(page);
      CountImages(page[..n]) + (if Eligible(page[n]) then 1 else 0)
  }

  /** Changing marks never changes the count. */
  lemma CountIgnoresMarks(p: seq<Img>, q: seq<Img>)
    requires OnlyMarksDiffer(p, q)
    ensures CountImages(p) == CountImages(q)
  {
  }

  // ---------------------------------------------------------------------------
  // The MutationObserver callback's marking pass
  // ---------------------------------------------------------------------------

  /** A node from a mutation record's `addedNodes`. A non-element node (text,
      comment) is skipped. An element names, as positions on the page after the
      mutation, the <img> it is itself (if it is one) and the <img> elements
      among its descendants. A position outside the page stands for an element
      that had already left the document when the callback ran. */
  datatype Added =
    | NonElement
    | Element(img: Option<nat>, descendants: seq<nat>)

  /** Does the added node contain page position `i`, as itself or as a descendant? */
  predicate Covers(node: Added, i: nat) {
    node.Element? && (node.img == Some(i) || i in node.descendants)
  }

  /** Was page position `i` covered by some node of the batch? */
  predicate InsertedIn(batch: seq<Added>, i: nat) {
    exists k :: 0 <= k < |batch| && Covers(batch[k], i)
  }

  /** Mark the image at position `i` if it exists and passes the filter. */
  function MarkIfEligible(page: seq<Img>, i: nat): (r: seq<Img>)
    ensures OnlyMarksDiffer(page, r)
    ensures forall j :: 0 <= j < |page| ==>
              r[j] == (if j == i && Eligible(page[j]) then Mark(page[j]) else page[j])
  {
    if i < |page| && Eligible(page[i]) then page[i := Mark(page[i])] else page
  }

  /** Mark every eligible image among the given positions (`querySelectorAll('img')` of one node). */
  function MarkEach(page: seq<Img>, positions: seq<nat>): (r: seq<Img>)
    ensures OnlyMarksDiffer(page, r)
    ensures forall j :: 0 <= j < |page| ==>
              r[j] == (if j in positions && Eligible(page[j]) then Mark(page[j]) else page[j])
    decreases |positions|
  {
    if positions == [] then page
    else
      var next := MarkIfEligible(page, positions[0]);
      var r := MarkEach(next, positions[1..]);
      assert forall j :: 0 <= j < |page| ==> Eligible(next[j]) == Eligible(page[j]) by {
        forall j | 0 <= j < |page| ensures Eligible(next[j]) == Eligible(page[j]) {
          EligibleIgnoresMark(page[j], next[j]);
        }
      }
      assert forall j :: j in positions <==> j == positions[0] || j in positions[1..] by {
        assert positions == [positions[0]] + positions[1..];
      }
      r
  }

  /** One added node: the element itself if it is an eligible IMG, then its descendants. */
  function ProcessNode(page: seq<Img>, node: Added): (r: seq<Img>)
    ensures OnlyMarksDiffer(page, r)
    ensures forall j :: 0 <= j < |page| ==>
              r[j] == (if Covers(node, j) && Eligible(page[j]) then Mark(page[j]) else page[j])
  {
    match node
    case NonElement => page
    case Element(img, descendants) =>
      var self := if img.Some? then MarkIfEligible(page, img.value) else page;
      assert forall j :: 0 <= j < |page| ==> Eligible(self[j]) == Eligible(page[j]) by {
        forall j | 0 <= j < |page| ensures Eligible(self[j]) == Eligible(page[j]) {
          EligibleIgnoresMark(page[j], self[j]);
        }
      }
      MarkEach(self, descendants)
  }

  /** The marking pass over every added node of every record in the batch. */
  function ProcessBatch(page: seq<Img>, batch: seq<Added>): (r: seq<Img>)
    ensures OnlyMarksDiffer(page, r)
    ensures forall j :: 0 <= j < |page| ==>
              r[j] == (if InsertedIn(batch, j) && Eligible(page[j]) then Mark(page[j]) else page[j])
    decreases |batch|
  {
    if batch == [] then page
    else
      var next := ProcessNode(page, batch[0]);
      var r := ProcessBatch(next, batch[1..]);
      assert forall j :: 0 <= j < |page| ==> Eligible(next[j]) == Eligible(page[j]) by {
        forall j | 0 <= j < |page| ensures Eligible(next[j]) == Eligible(page[j]) {
          EligibleIgnoresMark(page[j], next[j]);
        }
      }
      assert forall j: nat :: InsertedIn(batch, j) <==> Covers(batch[0], j) || InsertedIn(batch[1..], j) by {
        forall j: nat ensures InsertedIn(batch, j) <==> Covers(batch[0], j) || InsertedIn(batch[1..], j) {
          if InsertedIn(batch, j) {
            var k :| 0 <= k < |batch| && Covers(batch[k], j);
            if k > 0 { assert batch[1..][k - 1] == batch[k]; }
          }
          if InsertedIn(batch[1..], j) {
            var k :| 0 <= k < |batch[1..]| && Covers(batch[1..][k], j);
            assert batch[k + 1] == batch[1..][k];
          }
          if Covers(batch[0], j) {
            assert Covers(batch[0], j) && 0 < |batch|;
          }
        }
      }
      r
  }

  /** After the pass every eligible inserted image is marked, and every image the
      batch did not insert, or that fails the filter, is exactly as before. */
  lemma BatchMarksInsertedEligible(page: seq<Img>, batch: seq<Added>, j: nat)
    requires j < |page|
    ensures InsertedIn(batch, j) && Eligible(page[j]) ==> ProcessBatch(page, batch)[j].clickable
    ensures !InsertedIn(batch, j) || !Eligible(page[j]) ==> ProcessBatch(page, batch)[j] == page[j]
  {
  }

  /** Running the pass on a page that is already fully marked changes nothing. */
  lemma BatchAfterAddImageStyles(page: seq<Img>, batch: seq<Added>)
    ensures ProcessBatch(AddImageStyles(page), batch) == AddImageStyles(page)
  {
  }
}

=== FILE: transform.dfy ===
/**
 * The viewer's image transform: a scale factor changed in steps of 1.2 and
 * clamped to [0.1, 10], and a clockwise rotation in quarter turns
 * (content/content.js, `zoomIn`, `zoomOut`, `rotate`, `reset`). The scale is a
 * JavaScript double in the program; here it is an exact real.
 */
module Transform {

  const MinScale: real := 0.1
  const MaxScale: real := 10.0
  const ZoomStep: real := 1.2
  const DefaultScale: real := 1.0

  const QuarterTurn: int := 90
  const FullTurn: int := 360
  const DefaultRotation: int := 0

  predicate InScaleRange(s: real) {
    MinScale <= s <= MaxScale
  }

  /** The four angles a rotation can take when it starts from 0. */
  predicate ValidRotation(r: int) {
    r == 0 || r == 90 || r == 180 || r == 270
  }

  function Min(a: real, b: real): real { if a < b then a else b }

  function Max(a: real, b: real): real { if a > b then a else b }

  /** `zoomIn`: one step larger, never beyond the maximum. */
  function ZoomIn(s: real): (r: real)
    ensures r <= MaxScale
    ensures InScaleRange(s) ==> InScaleRange(r) && s <= r
    ensures s * ZoomStep <= MaxScale ==> r == s * ZoomStep
    ensures s * ZoomStep > MaxScale ==> r == MaxScale
  {
    Min(s * ZoomStep, MaxScale)
  }

  /** `zoomOut`: one step smaller, never below the minimum. */
  function ZoomOut(s: real): (r: real)
    ensures MinScale <= r
    ensures InScaleRange(s) ==> InScaleRange(r) && r <= s
    ensures s / ZoomStep >= MinScale ==> r == s / ZoomStep
    ensures s / ZoomStep < MinScale ==> r == MinScale
  {
    Max(s / ZoomStep, MinScale)
  }

  /** Zooming out undoes a zoom in that the upper clamp did not cut short. */
  lemma ZoomOutUndoesZoomIn(s: real)
    requires MinScale <= s && s * ZoomStep <= MaxScale
    ensures ZoomOut(ZoomIn(s)) == s
  {
  }

  /** Zooming in undoes a zoom out that the lower clamp did not cut short. */
  lemma ZoomInUndoesZoomOut(s: real)
    requires s <= MaxScale && s / ZoomStep >= MinScale
    ensures ZoomIn(ZoomOut(s)) == s
  {
  }

  /** Near the top of the range the clamp breaks the round trip: from 9 a zoom
      in stops at 10, and the zoom out then lands on 10 / 1.2, not on 9. */
  lemma ClampBreaksRoundTrip()
    ensures ZoomIn(9.0) == MaxScale
    ensures ZoomOut(ZoomIn(9.0)) != 9.0
  {
  }

  /** s·1.2^n: the scale n zoom steps would reach with no cap. */
  function Grown(s: real, n: nat): (g: real)
    ensures 0.0 <= s ==> s <= g
    decreases n
  {
    if n == 0 then s else Grown(s * ZoomStep, n - 1)
  }

  /** n consecutive zoom-ins. */
  function ZoomInTimes(s: real, n: nat): real
    decreases n
  {
    if n == 0 then s else ZoomInTimes(ZoomIn(s), n - 1)
  }

  /** n consecutive zoom-outs. */
  function ZoomOutTimes(s: real, n: nat): real {
    if n == 0 then s else ZoomOut(ZoomOutTimes(s, n - 1))
  }

  /** Any number of zoom steps keeps a scale inside the range. */
  lemma {:induction false} ZoomTimesStayInRange(s: real, n: nat)
    requires InScaleRange(s)
    ensures InScaleRange(ZoomInTimes(s, n))
    ensures InScaleRange(ZoomOutTimes(s, n))
    decreases n
  {
    if n > 0 {
      ZoomTimesStayInRange(ZoomIn(s), n - 1);
      ZoomTimesStayInRange(s, n - 1);
    }
  }

  /** n zoom-ins followed by n zoom-outs restore the scale exactly when the n
      zoom-ins never reach the maximum, i.e. when s·1.2^n <= 10. */
  lemma {:induction false} ZoomRoundTrip(s: real, n: nat)
    requires MinScale <= s && Grown(s, n) <= MaxScale
    ensures ZoomInTimes(s, n) == Grown(s, n)
    ensures ZoomOutTimes(ZoomInTimes(s, n), n) == s
    decreases n
  {
    if n > 0 {
      var up := s * ZoomStep;
      assert Grown(s, n) == Grown(up, n - 1);
      assert ZoomIn(s) == up;
      ZoomRoundTrip(up, n - 1);
      var top := ZoomInTimes(up, n - 1);
      assert ZoomInTimes(s, n) == top;
      assert ZoomOutTimes(top, n) == ZoomOut(ZoomOutTimes(top, n - 1));
      ZoomOutUndoesZoomIn(s);
    }
  }

  /** `rotate`: add a quarter turn and wrap to 0 on reaching a full turn. */
  function Rotate(r: int): (t: int)
    ensures ValidRotation(r) ==> ValidRotation(t)
    ensures ValidRotation(r) ==> t == (r + QuarterTurn) % FullTurn
  {
    if r + QuarterTurn >= FullTurn then 0 else r + QuarterTurn
  }

  /** n consecutive rotations. */
  function RotateTimes(r: int, n: nat): int {
    if n == 0 then r else Rotate(RotateTimes(r, n - 1))
  }

  /** From a valid angle, n rotations advance by n quarter turns modulo a full turn. */
  lemma {:induction false} RotateTimesIsModular(r: int, n: nat)
    requires ValidRotation(r)
    ensures ValidRotation(RotateTimes(r, n))
    ensures RotateTimes(r, n) == (r + QuarterTurn * n) % FullTurn
  {
    if n > 0 {
      RotateTimesIsModular(r, n - 1);
      var prev := RotateTimes(r, n - 1);
      assert (prev + QuarterTurn) % FullTurn == (r + QuarterTurn * n) % FullTurn by {
        var q := (r + QuarterTurn * (n - 1)) / FullTurn;
        assert r + QuarterTurn * (n - 1) == q * FullTurn + prev;
        assert r + QuarterTurn * n == q * FullTurn + (prev + QuarterTurn);
      }
    }
  }

  /** Four rotations bring any valid angle back to itself. */
  lemma FourRotationsAreIdentity(r: int)
    requires ValidRotation(r)
    ensures RotateTimes(r, 4) == r
    ensures Rotate(Rotate(Rotate(Rotate(r)))) == r
  {
  }
}

=== FILE: viewer.dfy ===
/**
 * The whole ImageViewer as an event-driven state machine: every DOM, timer,
 * storage and runtime-message callback of content/content.js becomes one
 * event, and `Step` is the callback's effect on the watcher part (flag,
 * observer, marks, count) and the overlay part (modal, transform, listeners,
 * timers) of the state.
 */
module Viewer {
  import opened Page
  import opened Transform
  import opened Input
  import opened Watcher
  import opened Overlay

  datatype State = State(watcher: Watcher, overlay: Overlay)

  /** What a document click hit: something that is not one of the page's
      <img> elements, or the page's <img> at a position. A position outside the
      page stands for an element no longer in the document. */
  datatype Target = NotAnImage | PageImage(i: nat)

  datatype Event =
    | StorageAnswered(stored: JsValue)                   // the chrome.storage.local.get callback in init
    | MessageArrived(msg: Message)                       // chrome.runtime.onMessage
    | DocumentClicked(target: Target)                    // the delegated click listener
    | ChildListChanged(page: seq<Img>, added: seq<Added>, modalRemoved: bool)
                                                         // the host inserts or removes nodes, the modal perhaps among them
    | StyleChanged(page: seq<Img>)                       // host changes sizes or styles only
    | KeyPressed(key: string, ctrl: bool, meta: bool)    // keydown on the document
    | WheelTurned(deltaY: real)                          // wheel over the modal
    | ButtonClicked(control: Control)                    // a modal button
    | BackdropClicked                                    // a click whose target is the modal itself
    | TeardownTimerFired                                 // a hideImageViewer timeout runs
    | DisabledByBackground                               // background.js disableExtensionOnPage

  datatype Outcome = Outcome(next: State, reply: Reply)

  /** The alt text used when the clicked image has none. */
  const DefaultAlt: string := "图片"

  /** `target.alt || '图片'`: an empty alt is falsy. */
  function AltOrDefault(alt: string): (r: string)
    ensures r != ""
    ensures alt != "" ==> r == alt
    ensures alt == "" ==> r == DefaultAlt
  {
    if alt == "" then DefaultAlt else alt
  }

  /** The page right after the content script is constructed. */
  function Initial(page: seq<Img>): (s: State)
    ensures s.watcher.enabled && !s.watcher.observing && s.watcher.imageCount == 0
    ensures s.overlay.modal == NoModal && LiveHandlers(s.overlay) == 0
    ensures TransformOk(s.overlay)
  {
    State(Start(page), Closed())
  }

  /** Is the target an <img> of the page? */
  predicate OnPage(w: Watcher, target: Target) {
    target.PageImage? && target.i < |w.page|
  }

  /** Does `handleDocumentClick` open the viewer for this target? */
  predicate Intercepts(w: Watcher, target: Target) {
    w.enabled && OnPage(w, target) && w.page[target.i].clickable && Eligible(w.page[target.i])
  }

  /** `handleDocumentClick`: ignore everything while disabled; otherwise open
      the viewer for a marked <img> that still passes the filter. */
  function DocumentClick(w: Watcher, o: Overlay, target: Target): (t: Overlay)
    ensures !w.enabled || !OnPage(w, target) ==> t == o
    ensures OnPage(w, target) && !w.page[target.i].clickable ==> t == o
    ensures OnPage(w, target) && !Eligible(w.page[target.i]) ==> t == o
    ensures w.enabled && OnPage(w, target) && w.page[target.i].clickable && Eligible(w.page[target.i]) ==>
              var img := w.page[target.i];
              && t.modal == Attached(true)
              && t.picture == Some(Picture(img.src, AltOrDefault(img.alt)))
              && t.scale == DefaultScale && t.rotation == DefaultRotation
              && LiveHandlers(t) == LiveHandlers(o) + 1
              && t.modalsCreated == if o.modal.Attached? then o.modalsCreated else o.modalsCreated + 1
  {
    if !w.enabled then o
    else if OnPage(w, target) && w.page[target.i].clickable then
      var img := w.page[target.i];
      if img.width <= MinSide || img.height <= MinSide || !Visible(img) then o
      else Show(o, img.src, AltOrDefault(img.alt))
    else o
  }

  /** The observer callback the viewer's own modal causes. Appending a new
      modal to the body adds one element, whose only <img> is the viewer's own
      (not part of the modelled page); removing it adds no node. Either way the
      callback runs and recounts, unless the observer is off or the flag is. */
  function ModalMutation(w: Watcher, before: Overlay, after: Overlay): (t: Watcher)
    ensures t.page == w.page && t.enabled == w.enabled && t.observing == w.observing
    ensures before.modal.Attached? == after.modal.Attached? ==> t == w
    ensures !(w.observing && w.enabled) ==> t == w
    ensures before.modal.Attached? != after.modal.Attached? && w.observing && w.enabled ==>
              t.imageCount == |EligibleAt(w.page)|
  {
    var batch :=
      if !before.modal.Attached? && after.modal.Attached? then [Element(None, [])]
      else [];
    if before.modal.Attached? == after.modal.Attached? then w
    else
      var t := Inserted(w, w.page, batch);
      assert forall i :: 0 <= i < |w.page| ==> !InsertedIn(batch, i);
      t
  }

  /** The events that can insert or remove nodes under the body: the host's
      own changes, and the viewer's and the background script's insertion or
      removal of the modal. */
  predicate MayChangeChildList(e: Event) {
    e.ChildListChanged? || e.DocumentClicked? || e.TeardownTimerFired? || e.DisabledByBackground?
  }

  /** The events after which an image can carry a mark it did not carry
      before: the storage read, enabling, and the host's own changes (whose
      new page is taken as given). */
  predicate MaySetMarks(e: Event) {
    || e.StorageAnswered?
    || (e.MessageArrived? && e.msg.ToggleExtension? && e.msg.enabled)
    || e.ChildListChanged?
    || e.StyleChanged?
  }

  /** The effect of one event, together with the observer callback it causes,
      and the response sent if it was a message. */
  function Step(s: State, e: Event): (out: Outcome)
    ensures TransformOk(s.overlay) ==> TransformOk(out.next.overlay)
    ensures !MayChangeChildList(e) ==> out.next.watcher.imageCount == s.watcher.imageCount
    ensures !e.ChildListChanged? && out.next.overlay.modal.Attached? == s.overlay.modal.Attached? ==>
              out.next.watcher.imageCount == s.watcher.imageCount
    ensures !e.ChildListChanged? && out.next.overlay.modal.Attached? != s.overlay.modal.Attached?
            && s.watcher.observing && s.watcher.enabled ==>
              out.next.watcher.imageCount == |EligibleAt(s.watcher.page)|
    ensures !e.ChildListChanged? && !(s.watcher.observing && s.watcher.enabled) ==>
              out.next.watcher.imageCount == s.watcher.imageCount
    ensures !MaySetMarks(e) ==>
              && |out.next.watcher.page| == |s.watcher.page|
              && forall i :: 0 <= i < |s.watcher.page| && !s.watcher.page[i].clickable ==>
                   !out.next.watcher.page[i].clickable
    ensures !e.MessageArrived? ==> out.reply == NoReply
    ensures e.MessageArrived? && e.msg.ToggleExtension? ==> out.reply == Success && out.next.overlay == s.overlay
    ensures e.MessageArrived? && e.msg.GetImageCount? ==> out == Outcome(s, Count(s.watcher.imageCount))
  {
    var w := s.watcher;
    var o := s.overlay;
    match e
    case StorageAnswered(stored) => Outcome(State(Load(w, stored), o), NoReply)
    case MessageArrived(msg) =>
      var (w', reply) := Receive(w, msg);
      Outcome(State(w', o), reply)
    case DocumentClicked(target) =>
      var t := DocumentClick(w, o, target);
      Outcome(State(ModalMutation(w, o, t), t), NoReply)
    case ChildListChanged(page, added, modalRemoved) =>
      Outcome(State(Inserted(w, page, added), if modalRemoved then DetachExternally(o) else o), NoReply)
    case StyleChanged(page) => Outcome(State(Restyled(w, page), o), NoReply)
    case KeyPressed(key, ctrl, meta) => Outcome(State(w, KeyDown(o, key, ctrl, meta)), NoReply)
    case WheelTurned(deltaY) => Outcome(State(w, OnModal(o, WheelAction(deltaY))), NoReply)
    case ButtonClicked(control) => Outcome(State(w, OnModal(o, ButtonAction(control))), NoReply)
    case BackdropClicked => Outcome(State(w, OnModal(o, Close)), NoReply)
    case TeardownTimerFired =>
      var t := if o.pendingTimers > 0 then TeardownFires(o) else o;
      Outcome(State(ModalMutation(w, o, t), t), NoReply)
    case DisabledByBackground =>
      var cleared := ClearMarksExternally(w);
      var t := DetachExternally(o);
      CountIgnoresMarks(w.page, cleared.page);
      Outcome(State(ModalMutation(cleared, o, t), t), NoReply)
  }

  /** The state after a sequence of events. */
  function Run(s: State, events: seq<Event>): State
    decreases |events|
  {
    if events == [] then s else Run(Step(s, events[0]).next, events[1..])
  }

  /** A run of two events is the two steps in order. */
  lemma RunOfTwo(s: State, e1: Event, e2: Event)
    ensures Run(s, [e1, e2]) == Step(Step(s, e1).next, e2).next
  {
    var s1 := Step(s, e1).next;
    assert [e1, e2][1..] == [e2];
    assert Run(s, [e1, e2]) == Run(s1, [e2]);
    assert [e2][1..] == [];
    assert Run(s1, [e2]) == Run(Step(s1, e2).next, []);
  }

  // ---------------------------------------------------------------------------
  // Properties of the whole viewer
  // ---------------------------------------------------------------------------

  /** Scale stays in [0.1, 10] and rotation in {0, 90, 180, 270} along any run
      from startup. */
  lemma {:induction false} RunKeepsTransformOk(s: State, events: seq<Event>)
    requires TransformOk(s.overlay)
    ensures TransformOk(Run(s, events).overlay)
    decreases |events|
  {
    if events != [] {
      RunKeepsTransformOk(Step(s, events[0]).next, events[1..]);
    }
  }

  /** The count is recomputed only by an observer callback: a run with no
      event that can insert or remove nodes keeps it. */
  lemma {:induction false} CountChangesOnlyOnMutations(s: State, events: seq<Event>)
    requires forall k :: 0 <= k < |events| ==> !MayChangeChildList(events[k])
    ensures Run(s, events).watcher.imageCount == s.watcher.imageCount
    decreases |events|
  {
    if events != [] {
      CountChangesOnlyOnMutations(Step(s, events[0]).next, events[1..]);
    }
  }

  /** GET_IMAGE_COUNT answers 0 until the first event that can insert or
      remove nodes. */
  lemma CountIsZeroBeforeFirstMutation(page: seq<Img>, events: seq<Event>)
    requires forall k :: 0 <= k < |events| ==> !MayChangeChildList(events[k])
    ensures Step(Run(Initial(page), events), MessageArrived(GetImageCount)).reply == Count(0)
  {
    CountChangesOnlyOnMutations(Initial(page), events);
  }

  /** Opening the viewer appends its modal to the body, and the observer's
      callback recounts: with one visible 100x100 image, a click right after
      startup makes GET_IMAGE_COUNT answer 1. */
  lemma OpeningTheViewerRecounts()
    ensures
      var a := Img("a.png", "", 100, 100, "inline", "visible", "1", false);
      var loaded := Step(Initial([a]), StorageAnswered(JsUndefined)).next;
      var shown := Step(loaded, DocumentClicked(PageImage(0))).next;
      && shown.overlay.modal == Attached(true)
      && Step(shown, MessageArrived(GetImageCount)).reply == Count(1)
  {
    var a := Img("a.png", "", 100, 100, "inline", "visible", "1", false);
    assert EligibleAt([a]) == {0};
  }

  /** At startup the flag is on unless the stored value is exactly false, and
      marking and observing start only when it is on. */
  lemma StartupLoad(page: seq<Img>, stored: JsValue)
    ensures var w := Step(Initial(page), StorageAnswered(stored)).next.watcher;
            && (w.enabled <==> stored != JsBool(false))
            && (w.observing <==> w.enabled)
            && (w.enabled ==> forall i :: 0 <= i < |page| ==> (w.page[i].clickable <==> page[i].clickable || Eligible(page[i])))
            && (!w.enabled ==> w.page == page)
  {
  }

  /** TOGGLE_EXTENSION(false): no mark left, no observer, overlay untouched,
      `{success: true}`. */
  lemma ToggleOffClearsEverything(s: State)
    ensures var out := Step(s, MessageArrived(ToggleExtension(false)));
            && out.reply == Success
            && out.next.overlay == s.overlay
            && !out.next.watcher.enabled && !out.next.watcher.observing
            && OnlyMarksDiffer(s.watcher.page, out.next.watcher.page)
            && forall i :: 0 <= i < |out.next.watcher.page| ==> !out.next.watcher.page[i].clickable
  {
  }

  /** TOGGLE_EXTENSION(true): every eligible image marked, observer connected,
      overlay untouched, `{success: true}`. */
  lemma ToggleOnMarksEligible(s: State)
    ensures var out := Step(s, MessageArrived(ToggleExtension(true)));
            && out.reply == Success
            && out.next.overlay == s.overlay
            && out.next.watcher.enabled && out.next.watcher.observing
            && OnlyMarksDiffer(s.watcher.page, out.next.watcher.page)
            && forall i :: 0 <= i < |s.watcher.page| ==>
                 (out.next.watcher.page[i].clickable <==> s.watcher.page[i].clickable || Eligible(s.watcher.page[i]))
  {
  }

  /** While the flag is off an observer callback changes nothing: the state
      only takes the host's new page (and loses the modal if the host removed
      it). */
  lemma DisabledBatchChangesNothing(s: State, page: seq<Img>, added: seq<Added>, modalRemoved: bool)
    requires !s.watcher.enabled
    ensures Step(s, ChildListChanged(page, added, modalRemoved)).next.watcher == s.watcher.(page := page)
    ensures Step(s, ChildListChanged(page, added, modalRemoved)).next.overlay ==
              if modalRemoved then DetachExternally(s.overlay) else s.overlay
    ensures !modalRemoved ==> Step(s, ChildListChanged(page, added, false)).next == s.(watcher := s.watcher.(page := page))
  {
  }

  /** An enabled callback marks exactly the eligible inserted images and
      leaves the count equal to the number of eligible images on the page. */
  lemma EnabledBatchMarksAndCounts(s: State, page: seq<Img>, added: seq<Added>, modalRemoved: bool)
    requires s.watcher.enabled && s.watcher.observing
    ensures var w := Step(s, ChildListChanged(page, added, modalRemoved)).next.watcher;
            && OnlyMarksDiffer(page, w.page)
            && (forall i :: 0 <= i < |page| ==> (InsertedIn(added, i) && Eligible(page[i]) ==> w.page[i].clickable))
            && (forall i :: 0 <= i < |page| ==> (!InsertedIn(added, i) || !Eligible(page[i]) ==> w.page[i] == page[i]))
            && w.imageCount == |EligibleAt(page)|
  {
  }

  /** A stored false that answers after a TOGGLE_EXTENSION(true) turns the flag
      off but leaves the observer connected; its callbacks are then stopped
      only by their own flag check. */
  lemma LateStorageFalseKeepsObserver(page: seq<Img>, newPage: seq<Img>, added: seq<Added>, modalRemoved: bool)
    ensures var s := Run(Initial(page), [MessageArrived(ToggleExtension(true)), StorageAnswered(JsBool(false))]);
            && s.watcher.observing && !s.watcher.enabled
            && Step(s, ChildListChanged(newPage, added, modalRemoved)).next.watcher.page == newPage
            && Step(s, ChildListChanged(newPage, added, modalRemoved)).next.watcher.imageCount == 0
  {
  }

  /** Turning the extension off does not close an open viewer, and its keys
      keep working. */
  lemma ToggleOffKeepsViewerOpen(s: State, key: string, ctrl: bool, meta: bool)
    requires s.overlay.modal == Attached(true)
    ensures var t := Step(s, MessageArrived(ToggleExtension(false))).next;
            && t.overlay.modal == Attached(true)
            && Step(t, KeyPressed(key, ctrl, meta)).next.overlay == KeyDown(s.overlay, key, ctrl, meta)
  {
  }

  /** A click opens the viewer exactly when the flag is on and the target is
      a marked <img> of the page that still passes the filter; it then shows
      that image's src with its alt text or the default one. Any other click
      changes nothing. */
  lemma ClickOpensExactlyInterceptedTargets(s: State, i: nat)
    ensures !Intercepts(s.watcher, PageImage(i)) ==> Step(s, DocumentClicked(PageImage(i))).next == s
    ensures Step(s, DocumentClicked(NotAnImage)).next == s
    ensures Intercepts(s.watcher, PageImage(i)) ==>
              var o := Step(s, DocumentClicked(PageImage(i))).next.overlay;
              && o.modal == Attached(true)
              && o.picture == Some(Picture(s.watcher.page[i].src, AltOrDefault(s.watcher.page[i].alt)))
              && o.scale == DefaultScale && o.rotation == DefaultRotation
  {
  }

  /** A small image of the page, even if marked, never opens the viewer. */
  lemma SmallImageNeverOpens(s: State, i: nat)
    requires i < |s.watcher.page|
    requires s.watcher.page[i].width <= MinSide || s.watcher.page[i].height <= MinSide
    ensures Step(s, DocumentClicked(PageImage(i))).next == s
  {
  }

  /** The wheel zooms in for a negative deltaY and out otherwise, only while
      the modal is in the document. */
  lemma WheelZooms(s: State, deltaY: real)
    requires s.overlay.modal.Attached?
    ensures var o := Step(s, WheelTurned(deltaY)).next.overlay;
            && (deltaY < 0.0 ==> o.scale == ZoomIn(s.overlay.scale))
            && (deltaY >= 0.0 ==> o.scale == ZoomOut(s.overlay.scale))
            && o.rotation == s.overlay.rotation
  {
  }

  /** After the background script's clean-up no image is marked, and until
      an event that can set marks again, no image stays marked and no click
      does anything. */
  lemma {:induction false} NoClickOpensUntilMarked(s: State, events: seq<Event>, target: Target)
    requires forall k :: 0 <= k < |events| ==> !MaySetMarks(events[k])
    ensures var t := Run(Step(s, DisabledByBackground).next, events);
            && NoMarks(t.watcher.page)
            && Step(t, DocumentClicked(target)).next == t
  {
    var cleared := Step(s, DisabledByBackground).next;
    UnmarkedRun(cleared, events);
  }

  /** A run without an event that can set marks keeps a page without marks. */
  lemma {:induction false} UnmarkedRun(s: State, events: seq<Event>)
    requires NoMarks(s.watcher.page)
    requires forall k :: 0 <= k < |events| ==> !MaySetMarks(events[k])
    ensures NoMarks(Run(s, events).watcher.page)
    decreases |events|
  {
    if events != [] {
      UnmarkedRun(Step(s, events[0]).next, events[1..]);
    }
  }

  /** A run of three events is the three steps in order. */
  lemma RunOfThree(s: State, e1: Event, e2: Event, e3: Event)
    ensures Run(s, [e1, e2, e3]) == Step(Step(Step(s, e1).next, e2).next, e3).next
  {
    assert [e1, e2, e3][1..] == [e2, e3];
    RunOfTwo(Step(s, e1).next, e2, e3);
  }

  /** After the background script removes the modal and its marks, enabling
      marks the images again, and the next click on a qualifying image builds
      a fresh modal instead of reusing the orphan. */
  lemma ReopenAfterBackgroundRemoval(s: State, i: nat)
    requires s.overlay.modal.Attached?
    requires i < |s.watcher.page| && Eligible(s.watcher.page[i])
    ensures var t := Run(s, [DisabledByBackground, MessageArrived(ToggleExtension(true)), DocumentClicked(PageImage(i))]);
            && t.overlay.modal == Attached(true)
            && t.overlay.modalsCreated == s.overlay.modalsCreated + 1
            && t.overlay.picture == Some(Picture(s.watcher.page[i].src, AltOrDefault(s.watcher.page[i].alt)))
  {
    RunOfThree(s, DisabledByBackground, MessageArrived(ToggleExtension(true)), DocumentClicked(PageImage(i)));
    var s1 := Step(s, DisabledByBackground).next;
    assert s1.overlay.modal.Orphaned? && s1.watcher.page[i] == Unmark(s.watcher.page[i]);
    var s2 := Step(s1, MessageArrived(ToggleExtension(true))).next;
    assert s2 == State(Toggle(s1.watcher, true), s1.overlay);
    assert s2.watcher.page[i] == Mark(s.watcher.page[i]) by {
      EligibleIgnoresMark(s.watcher.page[i], s1.watcher.page[i]);
    }
    var img := s.watcher.page[i];
    var shown := DocumentClick(s2.watcher, s2.overlay, PageImage(i));
    assert shown == Show(s2.overlay, img.src, AltOrDefault(img.alt));
    assert Step(s2, DocumentClicked(PageImage(i))).next.overlay == shown;
  }

  /** When the host itself removes the modal, the viewer still refers to it:
      the pending teardown finds it out of the document and leaves it alone,
      and the next click on a marked, qualifying image builds a new one. */
  lemma HostRemovalOrphansModal(s: State, page: seq<Img>, added: seq<Added>, i: nat)
    requires s.overlay.modal.Attached?
    requires s.watcher.enabled && i < |page| && page[i].clickable && Eligible(page[i])
    ensures var t := Step(s, ChildListChanged(page, added, true)).next;
            && t.overlay.modal == Orphaned(s.overlay.modal.active)
            && Step(t, TeardownTimerFired).next.overlay.modal == t.overlay.modal
            && Step(t, DocumentClicked(PageImage(i))).next.overlay.modal == Attached(true)
            && Step(t, DocumentClicked(PageImage(i))).next.overlay.modalsCreated == s.overlay.modalsCreated + 1
  {
  }

  /** A page with a visible 100x100 image, a visible 30x30 image and a hidden
      200x200 image: at startup only the first is marked, and clicking it opens
      the viewer on it. */
  lemma ThreeImageScenario()
    ensures
      var a := Img("a.png", "", 100, 100, "inline", "visible", "1", false);
      var b := Img("b.png", "", 30, 30, "inline", "visible", "1", false);
      var c := Img("c.png", "", 200, 200, "inline", "hidden", "1", false);
      var s := Step(Initial([a, b, c]), StorageAnswered(JsUndefined)).next;
      && s.watcher.page == [Mark(a), b, c]
      && CountImages(s.watcher.page) == 1
      && Step(s, DocumentClicked(PageImage(0))).next.overlay.picture == Some(Picture("a.png", DefaultAlt))
  {
  }
}

=== FILE: watcher.dfy ===
/**
 * The enable flag, the MutationObserver subscription, the clickable marks on
 * the page and the image count: the parts of ImageViewer's state that the
 * startup storage read, the TOGGLE_EXTENSION / GET_IMAGE_COUNT messages and
 * the observer callback work on (content/content.js).
 */
module Watcher {
  import opened Page

  /** The value `chrome.storage.local.get` hands back for `extensionEnabled`. */
  datatype JsValue = JsUndefined | JsBool(b: bool) | JsString(s: string) | JsNumber(n: int)

  /** A runtime message; only two kinds are answered. */
  datatype Message = ToggleExtension(enabled: bool) | GetImageCount | OtherMessage(kind: string)

  /** `sendResponse` payloads, or no response. */
  datatype Reply = NoReply | Success | Count(count: nat)

  datatype Watcher = Watcher(
    page: seq<Img>,      // the document's <img> elements, marks included
    enabled: bool,       // this.isEnabled
    observing: bool,     // this.observer is connected
    imageCount: nat)     // this.imageCount

  /** The constructor, before the asynchronous storage read answers: enabled,
      not observing, count 0. */
  function Start(page: seq<Img>): (w: Watcher)
    ensures w.enabled && !w.observing && w.imageCount == 0 && w.page == page
  {
    Watcher(page, true, false, 0)
  }

  /** `data.extensionEnabled !== false`: only a stored boolean false disables. */
  function StoredEnabled(v: JsValue): (b: bool)
    ensures v == JsUndefined ==> b
    ensures !b <==> v == JsBool(false)
  {
    !(v.JsBool? && !v.b)
  }

  /** `addImageStyles` followed by `setupMutationObserver` (which disconnects
      any earlier observer before connecting a new one). */
  function Activate(w: Watcher): (t: Watcher)
    ensures t.observing && t.enabled == w.enabled && t.imageCount == w.imageCount
    ensures OnlyMarksDiffer(w.page, t.page)
    ensures forall i :: 0 <= i < |t.page| ==> (t.page[i].clickable <==> w.page[i].clickable || Eligible(w.page[i]))
  {
    w.(page := AddImageStyles(w.page), observing := true)
  }

  /** The storage callback in `init`: set the flag; mark and observe only when
      enabled. A false flag does not disconnect an observer a toggle started
      before the read answered. */
  function Load(w: Watcher, stored: JsValue): (t: Watcher)
    ensures t.enabled <==> stored != JsBool(false)
    ensures OnlyMarksDiffer(w.page, t.page)
    ensures t.enabled ==> t.observing && forall i :: 0 <= i < |t.page| ==> (t.page[i].clickable <==> w.page[i].clickable || Eligible(w.page[i]))
    ensures !t.enabled ==> t == w.(enabled := false)
    ensures t.imageCount == w.imageCount
  {
    var on := StoredEnabled(stored);
    var flagged := w.(enabled := on);
    if on then Activate(flagged) else flagged
  }

  /** TOGGLE_EXTENSION: enabling marks and observes; disabling clears every
      mark and disconnects. The count is left as it was. */
  function Toggle(w: Watcher, on: bool): (t: Watcher)
    ensures t.enabled == on && t.observing == on && t.imageCount == w.imageCount
    ensures OnlyMarksDiffer(w.page, t.page)
    ensures on ==> forall i :: 0 <= i < |t.page| ==> (t.page[i].clickable <==> w.page[i].clickable || Eligible(w.page[i]))
    ensures !on ==> forall i :: 0 <= i < |t.page| ==> !t.page[i].clickable
  {
    var flagged := w.(enabled := on);
    if on then Activate(flagged)
    else flagged.(page := RemoveImageStyles(w.page), observing := false)
  }

  /** The two message kinds the content script answers. */
  function Receive(w: Watcher, m: Message): (result: (Watcher, Reply))
    ensures m.ToggleExtension? ==> result == (Toggle(w, m.enabled), Success)
    ensures m.GetImageCount? ==> result == (w, Count(w.imageCount))
    ensures m.OtherMessage? ==> result == (w, NoReply)
  {
    match m
    case ToggleExtension(on) => (Toggle(w, on), Success)
    case GetImageCount => (w, Count(w.imageCount))
    case OtherMessage(_) => (w, NoReply)
  }

  /** The host changes its child lists: the document becomes `newPage` and, if
      the observer is connected, its callback gets the added nodes. The callback
      does nothing while disabled; otherwise it marks the eligible inserted
      images and recounts the whole page. */
  function Inserted(w: Watcher, newPage: seq<Img>, added: seq<Added>): (t: Watcher)
    ensures t.enabled == w.enabled && t.observing == w.observing
    ensures !(w.observing && w.enabled) ==> t == w.(page := newPage)
    ensures w.observing && w.enabled ==>
              && OnlyMarksDiffer(newPage, t.page)
              && (forall i :: 0 <= i < |newPage| ==>
                    t.page[i] == (if InsertedIn(added, i) && Eligible(newPage[i]) then Mark(newPage[i]) else newPage[i]))
              && t.imageCount == |EligibleAt(newPage)|
              && t.imageCount == |EligibleAt(t.page)|
  {
    if w.observing && w.enabled then
      var marked := ProcessBatch(newPage, added);
      CountIgnoresMarks(newPage, marked);
      w.(page := marked, imageCount := CountImages(marked))
    else
      w.(page := newPage)
  }

  /** The host changes sizes or styles without touching child lists: no
      observer callback runs, so neither marks nor the count follow. */
  function Restyled(w: Watcher, newPage: seq<Img>): (t: Watcher)
    ensures t.page == newPage
    ensures t.enabled == w.enabled && t.observing == w.observing && t.imageCount == w.imageCount
  {
    w.(page := newPage)
  }

  /** background.js `disableExtensionOnPage`, run in the page from outside the
      viewer: every mark is removed; the viewer's own flag and observer are not
      touched. */
  function ClearMarksExternally(w: Watcher): (t: Watcher)
    ensures OnlyMarksDiffer(w.page, t.page)
    ensures forall i :: 0 <= i < |t.page| ==> !t.page[i].clickable
    ensures t.enabled == w.enabled && t.observing == w.observing && t.imageCount == w.imageCount
  {
    w.(page := RemoveImageStyles(w.page))
  }

  /** Disabling then enabling leaves exactly the eligible images marked. */
  lemma ToggleOffOnMarksExactlyEligible(w: Watcher)
    ensures var t := Toggle(Toggle(w, false), true);
            && OnlyMarksDiffer(w.page, t.page)
            && t.enabled && t.observing
            && forall i :: 0 <= i < |t.page| ==> (t.page[i].clickable <==> Eligible(w.page[i]))
  {
    RemarkMarksExactlyEligible(w.page);
  }

  /** Enabling twice is the same as enabling once. */
  lemma ToggleOnIdempotent(w: Watcher)
    ensures Toggle(Toggle(w, true), true) == Toggle(w, true)
  {
    AddImageStylesIdempotent(w.page);
  }
}
